=== FILE: README.md ===
# Find Falcone: the planet/vehicle assignment engine

A Dafny model of the game logic inside the galaxy screen of *Finding Falcone*
(`GalaxyComponent`). The player chooses four planets from the catalog and drags
one vehicle from a limited inventory onto each chosen planet. The screen keeps
two counters and the travel time (the slowest leg). A search proceeds only
at four planets and four vehicles; below that it is refused with an error. The request to the search
service is built but never answered, so a mock resolution always decides the
search by drawing the winner planet.

The component mutates its fields in event handlers. Here every handler is a
pure function from one immutable `State` to the next:

- `Inventory` (`inventory.dfy`): vehicle types, vehicle instances and the expansion of
  types into instances `name_1 .. name_total_no`. It holds both the
  functional definition `Expand` and the loop `ExpandInventory` the component
  runs. `Decimal` (`decimal.dfy`) renders the copy number the way JavaScript does.
- `Galaxy` (`galaxy.dfy`): planets, the screen `State`, the travel-time scan,
  and the handlers `selectThisPlanet` (`SelectPlanet`),
  `connectVehicleToPlanet` (`ConnectVehicle`), `markVehicleForSelection`
  (`MarkVehicle`), `resetVehicles` (`ResetVehicles`) and `reset` (`Reset`).
  `Drop` is one whole drag gesture: the drop handler followed by the drag-end
  handler on an accepted drop.
- `Invariants` (`invariants.dfy`): cross-handler invariants.
  - `Consistent`: every planet that holds a vehicle is selected, both counters
    equal their scans, the time matches the scan, and at most four planets are
    selected.
  - `Bookkept`: vehicle ids are unique, no id is held by two planets, and a
    vehicle is unavailable exactly when some planet holds it.
  - `Run` replays any sequence of screen events.
- `Search` (`search.dfy`): the `findFalcone` guard, the request body and the
  mock fallback. `SearchScenario` is a worked game (planets A..F, four pods)
  run through every handler.
- `Counting` (`counting.dfy`) and `Wrappers` (`wrappers.dfy`): the counting
  scan the component uses for its counters, and `Option`.

Modelling choices:
- Planets and inventory vehicles are addressed by position. The vehicle stored
  on a planet is a copy, because the component parses the dragged JSON. It is
  matched back to the inventory by `id`, as `resetVehicles` does.
- `Math.round(distance / speed)` is `(2*distance + speed) / (2*speed)` on
  naturals, with speeds positive.
- `Math.max()` of no legs is -Infinity. `Time` is therefore `NegInfinity | Finite(n)`.
  Loading and `reset` store 0 instead, so the time invariant allows that
  one exception.
- `lastDrag` is real state. It is cleared only by a refused drop and is never
  reset.
- The random draw `Math.floor(Math.random() * 6)` is the parameter `idx < 6`.

Behaviour of the component the model keeps:
- A refused drop clears `lastDrag`.
- With no planet both selected and assigned, the recalculated time is
  -Infinity (`Math.max()` of nothing); only loading and `reset` store 0.
- The search guard has three outcomes. Counts that are at least 4 but not
  both exactly 4 do nothing, with no error. `SearchOnConsistentScreen` shows
  that this cannot happen on a consistent screen.
- The winner is drawn from the first six catalog entries. If `idx` is past the
  end of the catalog, the fallback throws instead of answering.
- The vehicle names in the request body are pushed only for selected planets
  that hold a vehicle.
- A drop is two handlers, the drop on the planet and the drag end on the
  vehicle, and the model keeps them as two operations.

## Model

| member | source | states |
|---|---|---|
| Inventory.ExpandInventory | src/app/components/galaxy/galaxy.component.ts:44-55 | the nested loading loop produces exactly the functional expansion `Expand` of the catalog |
| Inventory.Expand | src/app/components/galaxy/galaxy.component.ts:48-54 | the expansion has as many vehicles as the summed `total_no` of all types, and every one is available |
| Inventory.ExpandLayout | src/app/components/galaxy/galaxy.component.ts:48-54 | the j-th copy of the k-th type sits right after the copies of all earlier types and has id `<name>_<j+1>` and the type's fields |
| Inventory.ExpandOrigin | src/app/components/galaxy/galaxy.component.ts:48-54 | conversely every expanded vehicle is copy j (1 ≤ j ≤ total_no) of some catalog type |
| Inventory.InstanceIdInjective | src/app/components/galaxy/galaxy.component.ts:51 | an id `name + '_' + i` determines both the type name and the copy number, even when names contain underscores |
| Inventory.ExpandUniqueIds | src/app/components/galaxy/galaxy.component.ts:48-54 | when type names are distinct, all expanded vehicles have distinct ids |
| Decimal.ParseNatToString | src/app/components/galaxy/galaxy.component.ts:51 | the decimal rendering of the copy number parses back to the number, so it is injective |
| Counting.CountIsCardinality | src/app/components/galaxy/galaxy.component.ts:183-189 | the counting scan (`recalculateAssignedVehicles`, and the selected recount at 87-90) equals the number of positions whose element passes the test |
| Counting.CountZero | src/app/components/galaxy/galaxy.component.ts:183-189 | the scan is 0 exactly when no element passes the test |
| Counting.CountUpdate | src/app/components/galaxy/galaxy.component.ts:87-90 | changing one element changes the scan by that element's contribution only |
| Galaxy.Initial | src/app/components/galaxy/galaxy.component.ts:18-54 | after loading, planets are the catalog entries, none selected or assigned, vehicles are the expansion, counters 0, `lastDrag` false, time 0 |
| Galaxy.TravelTime | src/app/components/galaxy/galaxy.component.ts:199 | the leg time t is `Math.round(distance / speed)`: t ≤ distance/speed + 1/2 < t + 1 |
| Galaxy.MaxTravelTimeIsMaximum | src/app/components/galaxy/galaxy.component.ts:192-204 | the recalculated time is -Infinity exactly when no planet is both selected and assigned, and otherwise the largest leg time of such a planet, attained by one of them |
| Galaxy.MaxTravelTimeIs | src/app/components/galaxy/galaxy.component.ts:196-203 | a bound on every en-route leg that some en-route leg meets is the recalculated time |
| Galaxy.MaxTravelTimeUpdate | src/app/components/galaxy/galaxy.component.ts:196-203 | replacing a planet by one with the same en-route status and leg time leaves the recalculated time unchanged |
| Galaxy.Recalculated | src/app/components/galaxy/galaxy.component.ts:183-204 | the paired recalculations (81-82, 138-139) set the vehicle count to the number of assigned planets and the time to the largest leg time of a planet both selected and assigned (an upper bound on every such leg, attained by one), or -Infinity exactly when there is none, changing nothing else |
| Galaxy.ResetVehicles | src/app/components/galaxy/galaxy.component.ts:157-166 | exactly the inventory vehicles with the given id become available; ids and all other fields stay |
| Galaxy.Reset | src/app/components/galaxy/galaxy.component.ts:168-180 | every vehicle available, every planet unselected and unassigned with name and distance kept, both counters and the time 0, `lastDrag` untouched |
| Galaxy.ResetIdempotent | src/app/components/galaxy/galaxy.component.ts:168-180 | resetting twice gives the same screen as resetting once |
| Galaxy.SelectPlanet | src/app/components/galaxy/galaxy.component.ts:63-91 | refused, with no change, exactly when an unselected planet is clicked at count 4; otherwise toggles only that planet, recounts the selection by scan, and on unselecting a planet with a vehicle frees that id, clears the assignment and recalculates count and time; otherwise vehicles, vehicle count and time are untouched |
| Galaxy.ConnectVehicle | src/app/components/galaxy/galaxy.component.ts:109-142 | out of range is refused first, then an unselected planet; a refusal only clears `lastDrag`; success frees the previous vehicle by id, binds the dropped copy, sets `lastDrag` and recalculates count and time |
| Galaxy.MarkVehicle | src/app/components/galaxy/galaxy.component.ts:144-155 | the dragged vehicle turns unavailable exactly when the drop effect is not `none` and `lastDrag` is set; nothing else changes |
| Galaxy.Drop | src/app/components/galaxy/galaxy.component.ts:109-155 | a full gesture succeeds exactly when the vehicle has the range and the planet is selected; then only planet p changes, now holding the vehicle, the planet's previous vehicle is freed by id, the dropped one is unavailable, `lastDrag` is set, the selected count is kept and the vehicle count and time are recalculated over the new planets; a refused gesture only clears `lastDrag` |
| Invariants.CountsBounded | src/app/components/galaxy/galaxy.component.ts:65-90 | on a consistent screen assignedVehicleCount ≤ selectedPlanetsCount ≤ 4: the guard refuses a fifth selection, and both counters are recounts (also at 183-189) |
| Invariants.InitialConsistent | src/app/components/galaxy/galaxy.component.ts:18-54 | the loaded screen is consistent |
| Invariants.ResetConsistent | src/app/components/galaxy/galaxy.component.ts:168-180 | reset yields a consistent screen from any screen |
| Invariants.SelectPreservesConsistent | src/app/components/galaxy/galaxy.component.ts:63-91 | selecting or unselecting keeps every assigned planet selected, counters equal to scans, time matching and at most four selected |
| Invariants.ConnectPreservesConsistent | src/app/components/galaxy/galaxy.component.ts:109-142 | a drop, accepted or refused, keeps the screen consistent |
| Invariants.MarkPreservesConsistent | src/app/components/galaxy/galaxy.component.ts:144-155 | the drag-end handler keeps the screen consistent |
| Invariants.ApplyPreservesConsistent | src/app/components/galaxy/galaxy.component.ts:63-180 | every single screen event keeps the screen consistent |
| Invariants.RunPreservesConsistent | src/app/components/galaxy/galaxy.component.ts:63-180 | any sequence of screen events keeps a consistent screen consistent |
| Invariants.ReachableConsistent | src/app/components/galaxy/galaxy.component.ts:63-189 | after loading and any sequence of select, drop, drag-end and reset events, every assigned planet is selected, counters equal their scans and assigned ≤ selected ≤ 4 |
| Invariants.FullAssignment | src/app/components/galaxy/galaxy.component.ts:183-214 | at four selected and four assigned, every selected planet holds a vehicle and the stored time is the finite maximum leg time |
| Invariants.UnselectReleases | src/app/components/galaxy/galaxy.component.ts:74-90 | unselecting a planet with a vehicle frees exactly the vehicles with its id, clears the planet, and lowers both counters by one |
| Invariants.SelectKeepsAssignments | src/app/components/galaxy/galaxy.component.ts:65-90 | selecting an unselected planet changes no vehicle and no assignment and raises the selected count by one |
| Invariants.InitialBookkept | src/app/components/galaxy/galaxy.component.ts:48-54 | with distinct type names the loaded inventory has unique ids and every vehicle is available and unheld |
| Invariants.ResetBookkept | src/app/components/galaxy/galaxy.component.ts:168-180 | after reset availability again mirrors the (now empty) assignments |
| Invariants.ResetVehiclesKeepsIds | src/app/components/galaxy/galaxy.component.ts:157-166 | freeing vehicles by id keeps inventory ids unique |
| Invariants.SelectPreservesBookkept | src/app/components/galaxy/galaxy.component.ts:74-84 | selection keeps availability equal to "no planet holds it" and no id held twice |
| Invariants.DropPreservesBookkept | src/app/components/galaxy/galaxy.component.ts:109-155 | a full gesture with an available vehicle keeps availability equal to "no planet holds it" and no id held twice |
| Invariants.BindKeepsBookkept | src/app/components/galaxy/galaxy.component.ts:131-153 | binding an available vehicle to a planet, marking it unavailable and making the planet's previous vehicle available again keeps ids unique, one holder per id, and availability equal to "no planet holds it" |
| Invariants.RebindSwapsAvailability | src/app/components/galaxy/galaxy.component.ts:131-136 | rebinding a planet frees its previous vehicle and takes the dropped one, which is a different vehicle |
| Invariants.StaleDragEndBreaksAvailability | src/app/components/galaxy/galaxy.component.ts:144-155 | since `lastDrag` stays set, a drag end on an accepting element without a drop marks an unheld vehicle unavailable |
| Search.SelectedPlanets | src/app/components/galaxy/galaxy.component.ts:224-226 | the selected planets in catalog order: as many as the selected count, all selected, and the selected planet at position i is entry number "selected planets before i" of the list |
| Search.BuildRequestBody | src/app/components/galaxy/galaxy.component.ts:219-231 | the body has one planet name per selected planet and one vehicle name per selected planet that holds a vehicle |
| Search.RequestBodyPlanetNames | src/app/components/galaxy/galaxy.component.ts:224-226 | the planet names are those of the selected planets, in catalog order |
| Search.RequestBodyAligned | src/app/components/galaxy/galaxy.component.ts:224-231 | when every selected planet holds a vehicle, the i-th vehicle name is that of the i-th planet's vehicle |
| Search.ReadyRequestBody | src/app/components/galaxy/galaxy.component.ts:214-231 | on a consistent screen ready to search the body lists four planets and their four vehicles, pairwise |
| Search.SelectedNamed | src/app/components/galaxy/galaxy.component.ts:244-252 | the scan finds the name exactly when some selected planet has it |
| Search.Fallback | src/app/components/galaxy/galaxy.component.ts:241-266 | success with the winner's name and the stored time exactly when a selected planet has the winner's name, failure otherwise; a winner past the catalog end throws once a selected planet is compared |
| Search.FindFalcone | src/app/components/galaxy/galaxy.component.ts:207-276 | refused exactly when fewer than four planets or vehicles; at exactly four and four the outcome is the fallback's, and only then does it navigate or crash; at least four of each but not exactly four and four does nothing; a success reports the drawn planet and the stored time |
| Search.SearchResolvesBySelection | src/app/components/galaxy/galaxy.component.ts:214-266 | at four and four, with distinct planet names and a draw inside the catalog, the search navigates, and it succeeds exactly when the drawn planet is selected |
| Search.FallbackFoundIffSelected | src/app/components/galaxy/galaxy.component.ts:244-266 | with distinct planet names the fallback succeeds exactly when the drawn planet is selected |
| Search.SearchOnConsistentScreen | src/app/components/galaxy/galaxy.component.ts:211-258 | on a consistent screen the guard never falls through silently, and a success reports the finite maximum travel time |
| SearchScenario.SelectD | src/app/components/galaxy/galaxy.component.ts:63-91 | with A, B, C selected, selecting D is accepted and the scan counts 4 selected planets |
| SearchScenario.FifthSelectionRefused | src/app/components/galaxy/galaxy.component.ts:65-70 | a fifth selection at four is refused with the screen unchanged |
| SearchScenario.DropD | src/app/components/galaxy/galaxy.component.ts:109-155 | the fourth drop binds the last pod, makes it unavailable and sets the time to max(1,2,3,4) = 4 |
| SearchScenario.ScenarioOutcome | src/app/components/galaxy/galaxy.component.ts:241-266 | with time 4, drawing B succeeds with B and 4, drawing F fails |

## Left out

- Angular lifecycle and plumbing are not modelled: `ngOnInit`'s subscriptions, the reset subject subscription and `ngOnDestroy`. Loading is `Initial`, and a reset signal is the `ResetEvent`.
- The HTTP calls are not modelled: `getToken`, the service's `findFalcone` and the `mergeMap` pipeline. Its callback returns nothing, so the error branch always runs, and only that fallback decision is modelled.
- `Math.random` is replaced by the caller-supplied index `idx < 6`.
- Drag-image and DOM code is not modelled: `dragVehicle`, `allowDrop`, `preventDefault` and the `dataTransfer` serialisation. The dragged JSON is the vehicle value itself, and `dropEffect !== 'none'` is the boolean `dropped`.
- Toasts and router navigation are not modelled. They appear only as the returned `Reply` error or the `Outcome` record.
- Floating point is not modelled: distances, ranges and speeds are naturals and speeds are positive. Fractional values are outside the model. So is the `Infinity`/`NaN` time a zero speed would give.
- The handlers' `false`/`undefined` return values are folded into `Reply`.
- Object identity is not modelled. Planets and inventory vehicles are positions in their sequences, and a planet's vehicle is a value compared by `id`.
- Search.FindFalcone: the fallback reads `planets` and `timeTaken` in the asynchronous error callback, after the token request settles. The model applies it to the screen at the press, so it assumes no select, drop or reset event happens in between. The callback's timing depends on the network, which is not modelled.
- Galaxy.MaxTravelTime has no contract of its own. `MaxTravelTimeIsMaximum` and `MaxTravelTimeIs` characterise it as the maximum leg time.
- The browser's ordering of drop and drag-end is not modelled. `Drop` assumes the drop comes first. Any other order is covered only by the separate `ConnectVehicle` and `MarkVehicle` events of `Run`.

=== FILE: counting.dfy ===
/**
 The component recomputes its counters by scanning a whole array and adding
 one for each element that passes a test (`forEach` with `x ? 1 : 0`).
 `Count` is that scan; the lemmas relate scans of slightly different arrays.
 */
module Counting {

  /** The number of elements of `xs` that satisfy `f`. */
  function Count<T>(xs: seq<T>, f: T -> bool): (n: nat)
    ensures n <= |xs|
  {
    if |xs| == 0 then 0 else (if f(xs[0]) then 1 else 0) + Count(xs[1..], f)
  }

  /** The positions of the elements of `xs` that satisfy `f`. */
  function Passing<T>(xs: seq<T>, f: T -> bool): set<int> {
    set i | 0 <= i < |xs| && f(xs[i])
  }

  /** Appending an element adds that element's contribution. */
  lemma {:induction false} CountAppend<T>(xs: seq<T>, x: T, f: T -> bool)
    ensures Count(xs + [x], f) == Count(xs, f) + (if f(x) then 1 else 0)
  {
    if |xs| > 0 {
      assert (xs + [x])[1..] == xs[1..] + [x];
      CountAppend(xs[1..], x, f);
    } else {
      assert (xs + [x])[1..] == [];
    }
  }

  /** The scan counts exactly the positions whose element passes the test. */
  lemma {:induction false} CountIsCardinality<T>(xs: seq<T>, f: T -> bool)
    ensures Count(xs, f) == |Passing(xs, f)|
    decreases |xs|
  {
    if |xs| > 0 {
      var n := |xs| - 1;
      var front := xs[..n];
      assert xs == front + [xs[n]];
      CountAppend(front, xs[n], f);
      CountIsCardinality(front, f);
      var last := if f(xs[n]) then {n} else {};
      forall i | i in Passing(xs, f)
        ensures i in Passing(front, f) + last
      {
        if i < n {
          assert front[i] == xs[i];
        }
      }
      forall i | i in Passing(front, f)
        ensures i in Passing(xs, f)
      {
        assert front[i] == xs[i];
      }
      assert Passing(xs, f) == Passing(front, f) + last;
    }
  }

  /** Nothing passes the test exactly when the count is zero. */
  lemma {:induction false} CountZero<T>(xs: seq<T>, f: T -> bool)
    ensures Count(xs, f) == 0 <==> forall i :: 0 <= i < |xs| ==> !f(xs[i])
  {
    if |xs| > 0 {
      CountZero(xs[1..], f);
      if Count(xs, f) == 0 {
        forall i | 0 <= i < |xs|
          ensures !f(xs[i])
        {
          if i > 0 {
            assert xs[i] == xs[1..][i - 1];
          }
        }
      } else if forall i :: 0 <= i < |xs| ==> !f(xs[i]) {
        forall i | 0 <= i < |xs[1..]|
          ensures !f(xs[1..][i])
        {
          assert xs[1..][i] == xs[i + 1];
        }
        assert false;
      }
    }
  }

  /** Replacing one element changes the count only by that element's contribution. */
  lemma {:induction false} CountUpdate<T>(xs: seq<T>, i: nat, x: T, f: T -> bool)
    requires i < |xs|
    ensures Count(xs[i := x], f) + (if f(xs[i]) then 1 else 0)
         == Count(xs, f) + (if f(x) then 1 else 0)
  {
    if i > 0 {
      assert xs[i := x][1..] == xs[1..][i - 1 := x];
      CountUpdate(xs[1..], i - 1, x, f);
    } else {
      assert xs[i := x][1..] == xs[1..];
    }
  }

  /** A test implied by another one passes at least as often. */
  lemma {:induction false} CountMonotone<T>(xs: seq<T>, f: T -> bool, g: T -> bool)
    requires forall i :: 0 <= i < |xs| && f(xs[i]) ==> g(xs[i])
    ensures Count(xs, f) <= Count(xs, g)
  {
    if |xs| > 0 {
      assert f(xs[0]) ==> g(xs[0]);
      forall i | 0 <= i < |xs[1..]| && f(xs[1..][i])
        ensures g(xs[1..][i])
      {
        assert xs[1..][i] == xs[i + 1];
      }
      CountMonotone(xs[1..], f, g);
    }
  }

  /**
   If `f` implies `g` everywhere and both pass equally often, then `g`
   implies `f` too: the two tests pick out the same elements.
   */
  lemma {:induction false} CountSqueeze<T>(xs: seq<T>, f: T -> bool, g: T -> bool)
    requires forall i :: 0 <= i < |xs| && f(xs[i]) ==> g(xs[i])
    requires Count(xs, f) == Count(xs, g)
    ensures forall i :: 0 <= i < |xs| && g(xs[i]) ==> f(xs[i])
  {
    if |xs| > 0 {
      forall i | 0 <= i < |xs[1..]| && f(xs[1..][i])
        ensures g(xs[1..][i])
      {
        assert xs[1..][i] == xs[i + 1];
      }
      CountMonotone(xs[1..], f, g);
      assert f(xs[0]) <==> g(xs[0]);
      CountSqueeze(xs[1..], f, g);
      forall i | 0 <= i < |xs| && g(xs[i])
        ensures f(xs[i])
      {
        if i > 0 {
          assert xs[i] == xs[1..][i - 1];
        }
      }
    }
  }
}

=== FILE: decimal.dfy ===
/**
 Decimal rendering of natural numbers, the way JavaScript turns the loop
 counter into text when it builds a vehicle id (`name + '_' + i`), together
 with the parser that inverts it.
 */
module Decimal {

  predicate IsDigit(c: char) {
    '0' <= c <= '9'
  }

  function DigitChar(d: nat): (c: char)
    requires d < 10
    ensures IsDigit(c)
    ensures c as int - '0' as int == d
  {
    (d + '0' as int) as char
  }

  /** The shortest decimal numeral of `n`, without sign or leading zeros. */
  function NatToString(n: nat): (s: string)
    ensures 1 <= |s|
    ensures forall i :: 0 <= i < |s| ==> IsDigit(s[i])
    ensures 1 < |s| ==> s[0] != '0'
    decreases n
  {
    if n < 10 then [DigitChar(n)] else NatToString(n / 10) + [DigitChar(n % 10)]
  }

  function DigitValue(c: char): (d: nat)
    requires IsDigit(c)
    ensures d < 10 && DigitChar(d) == c
  {
    c as int - '0' as int
  }

  /** The value of a string of decimal digits. */
  function ParseDecimal(s: string): nat
    requires forall i :: 0 <= i < |s| ==> IsDigit(s[i])
  {
    if |s| == 0 then 0
    else 10 * ParseDecimal(s[..|s| - 1]) + DigitValue(s[|s| - 1])
  }

  /** Parsing undoes rendering. */
  lemma {:induction false} ParseNatToString(n: nat)
    ensures ParseDecimal(NatToString(n)) == n
    decreases n
  {
    if n >= 10 {
      var s := NatToString(n);
      assert s[..|s| - 1] == NatToString(n / 10);
      ParseNatToString(n / 10);
    }
  }

  /** Hence distinct numbers render to distinct strings. */
  lemma NatToStringInjective(a: nat, b: nat)
    requires NatToString(a) == NatToString(b)
    ensures a == b
  {
    ParseNatToString(a);
    ParseNatToString(b);
  }
}

=== FILE: galaxy.dfy ===
/**
 The planet/vehicle assignment engine of the galaxy screen: which planets are
 chosen for the search, which vehicle flies to each, and the counters and
 travel time the screen derives from them. Every handler of the component is
 a pure transition from one `State` to the next.
 */
module Galaxy {
  import opened Wrappers
  import opened Counting
  import opened Inventory

  /**
   A planet of the catalog. `assignedVehicle` is the COPY of the vehicle that
   was dropped on it (the component parses the dragged JSON), so it is matched
   back to the inventory by `id` only.
   */
  datatype Planet = Planet(name: string, distance: nat, isSelected: bool, assignedVehicle: Option<Vehicle>)

  /** A planet as the catalog delivers it, before it is selected or assigned. */
  datatype PlanetEntry = PlanetEntry(name: string, distance: nat)

  /**
   The screen's travel time. `Math.max` of no arguments is -Infinity, which
   is what the component stores when no planet is both selected and assigned.
   */
  datatype Time = NegInfinity | Finite(value: nat)

  datatype State = State(
    planets: seq<Planet>,
    vehicles: seq<Vehicle>,
    selectedPlanetsCount: nat,
    assignedVehicleCount: nat,
    lastDrag: bool,
    timeTaken: Time)

  /** The error toasts of the screen. */
  datatype Error = SelectionLimit | OutOfRange | PlanetNotSelected | IncompleteAssignment

  /** What a handler answers: it went through, or it was refused with a toast. */
  datatype Reply = Done | Refused(reason: Error)

  datatype Transition = Transition(next: State, reply: Reply)

  predicate Selected(p: Planet) {
    p.isSelected
  }

  predicate Assigned(p: Planet) {
    p.assignedVehicle.Some?
  }

  /** A planet that contributes a travel time: selected and with a vehicle. */
  predicate EnRoute(p: Planet) {
    p.isSelected && p.assignedVehicle.Some?
  }

  /** The screen right after loading: nothing selected, every vehicle available. */
  function Initial(catalog: seq<PlanetEntry>, types: seq<VehicleType>): (s: State)
    ensures |s.planets| == |catalog| && s.vehicles == Expand(types)
    ensures forall i :: 0 <= i < |catalog| ==>
      && s.planets[i].name == catalog[i].name && s.planets[i].distance == catalog[i].distance
      && !Selected(s.planets[i]) && !Assigned(s.planets[i])
    ensures s.selectedPlanetsCount == 0 && s.assignedVehicleCount == 0
    ensures !s.lastDrag && s.timeTaken == Finite(0)
  {
    var planets := seq(|catalog|, i requires 0 <= i < |catalog| =>
      Planet(catalog[i].name, catalog[i].distance, false, None));
    State(planets, Expand(types), 0, 0, false, Finite(0))
  }

  /**
   `Math.round(distance / speed)`: the integer nearest to the ratio, halves
   rounded up, i.e. the `t` with `t <= distance/speed + 1/2 < t + 1`.
   */
  function TravelTime(distance: nat, speed: Speed): (t: nat)
    ensures 2 * speed * t <= 2 * distance + speed < 2 * speed * (t + 1)
  {
    (2 * distance + speed) / (2 * speed)
  }

  function Leg(p: Planet): nat
    requires EnRoute(p)
  {
    TravelTime(p.distance, p.assignedVehicle.value.speed)
  }

  function MaxTime(a: Time, b: Time): Time {
    match (a, b)
    case (NegInfinity, _) => b
    case (_, NegInfinity) => a
    case (Finite(x), Finite(y)) => if x < y then b else a
  }

  /** `Math.max` over the travel times of the planets that are en route. */
  function MaxTravelTime(ps: seq<Planet>): Time {
    if |ps| == 0 then NegInfinity
    else if EnRoute(ps[0]) then MaxTime(Finite(Leg(ps[0])), MaxTravelTime(ps[1..]))
    else MaxTravelTime(ps[1..])
  }

  /**
   `MaxTravelTime` is -Infinity exactly when no planet is en route, and
   otherwise the largest travel time of an en-route planet.
   */
  lemma {:induction false} MaxTravelTimeIsMaximum(ps: seq<Planet>)
    ensures MaxTravelTime(ps) == NegInfinity <==> forall i :: 0 <= i < |ps| ==> !EnRoute(ps[i])
    ensures forall i :: 0 <= i < |ps| && EnRoute(ps[i]) ==>
      MaxTravelTime(ps).Finite? && Leg(ps[i]) <= MaxTravelTime(ps).value
    ensures MaxTravelTime(ps).Finite? ==>
      exists i :: 0 <= i < |ps| && EnRoute(ps[i]) && Leg(ps[i]) == MaxTravelTime(ps).value
  {
    if |ps| > 0 {
      var rest := ps[1..];
      MaxTravelTimeIsMaximum(rest);
      forall i | 1 <= i < |ps|
        ensures ps[i] == rest[i - 1]
      {
      }
      if MaxTravelTime(ps).Finite? && MaxTravelTime(rest).Finite? && MaxTravelTime(ps) == MaxTravelTime(rest) {
        var i :| 0 <= i < |rest| && EnRoute(rest[i]) && Leg(rest[i]) == MaxTravelTime(rest).value;
        assert ps[i + 1] == rest[i];
      }
    }
  }

  /** A bound met by some en-route planet is the maximum. */
  lemma MaxTravelTimeIs(ps: seq<Planet>, m: nat, j: nat)
    requires forall i :: 0 <= i < |ps| && EnRoute(ps[i]) ==> Leg(ps[i]) <= m
    requires j < |ps| && EnRoute(ps[j]) && Leg(ps[j]) == m
    ensures MaxTravelTime(ps) == Finite(m)
  {
    MaxTravelTimeIsMaximum(ps);
  }

  /** Replacing a planet by one with the same contribution keeps the maximum. */
  lemma {:induction false} MaxTravelTimeUpdate(ps: seq<Planet>, i: nat, x: Planet)
    requires i < |ps|
    requires EnRoute(x) == EnRoute(ps[i])
    requires EnRoute(x) ==> Leg(x) == Leg(ps[i])
    ensures MaxTravelTime(ps[i := x]) == MaxTravelTime(ps)
  {
    if i > 0 {
      assert ps[i := x][1..] == ps[1..][i - 1 := x];
      MaxTravelTimeUpdate(ps[1..], i - 1, x);
    } else {
      assert ps[i := x][1..] == ps[1..];
    }
  }

  /**
   `resetVehicles`: every inventory vehicle whose id is `id` becomes available;
   nothing else about any vehicle changes.
   */
  function ResetVehicles(vs: seq<Vehicle>, id: string): (r: seq<Vehicle>)
    ensures |r| == |vs|
    ensures forall k :: 0 <= k < |vs| ==>
      && r[k].isAvailable == (vs[k].isAvailable || vs[k].id == id)
      && r[k].(isAvailable := vs[k].isAvailable) == vs[k]
  {
    seq(|vs|, k requires 0 <= k < |vs| => if vs[k].id == id then vs[k].(isAvailable := true) else vs[k])
  }

  /**
   `reset`: every vehicle available, every planet unselected and unassigned,
   counters and time back to 0. `lastDrag` is left as it was.
   */
  function Reset(s: State): (r: State)
    ensures |r.planets| == |s.planets| && |r.vehicles| == |s.vehicles|
    ensures forall k :: 0 <= k < |s.vehicles| ==>
      r.vehicles[k].isAvailable && r.vehicles[k].(isAvailable := s.vehicles[k].isAvailable) == s.vehicles[k]
    ensures forall i :: 0 <= i < |s.planets| ==>
      && !Selected(r.planets[i]) && !Assigned(r.planets[i])
      && r.planets[i].name == s.planets[i].name && r.planets[i].distance == s.planets[i].distance
    ensures r.selectedPlanetsCount == 0 && r.assignedVehicleCount == 0 && r.timeTaken == Finite(0)
    ensures r.lastDrag == s.lastDrag
  {
    var vs := seq(|s.vehicles|, k requires 0 <= k < |s.vehicles| => s.vehicles[k].(isAvailable := true));
    var ps := seq(|s.planets|, i requires 0 <= i < |s.planets| =>
      s.planets[i].(isSelected := false, assignedVehicle := None));
    s.(vehicles := vs, planets := ps, selectedPlanetsCount := 0, assignedVehicleCount := 0, timeTaken := Finite(0))
  }

  /** Resetting a reset screen changes nothing. */
  lemma ResetIdempotent(s: State)
    ensures Reset(Reset(s)) == Reset(s)
  {
    var r := Reset(s);
    assert Reset(r).vehicles == r.vehicles;
    assert Reset(r).planets == r.planets;
  }

  /** The counters and time after a handler that ends with both recalculations. */
  function Recalculated(s: State): (r: State)
    ensures r.planets == s.planets && r.vehicles == s.vehicles
    ensures r.selectedPlanetsCount == s.selectedPlanetsCount && r.lastDrag == s.lastDrag
    ensures r.assignedVehicleCount == |Passing(s.planets, Assigned)|
    ensures r.timeTaken == NegInfinity <==> forall i :: 0 <= i < |s.planets| ==> !EnRoute(s.planets[i])
    ensures forall i :: 0 <= i < |s.planets| && EnRoute(s.planets[i]) ==>
      r.timeTaken.Finite? && Leg(s.planets[i]) <= r.timeTaken.value
    ensures r.timeTaken.Finite? ==>
      exists i :: 0 <= i < |s.planets| && EnRoute(s.planets[i]) && Leg(s.planets[i]) == r.timeTaken.value
  {
    CountIsCardinality(s.planets, Assigned);
    MaxTravelTimeIsMaximum(s.planets);
    s.(assignedVehicleCount := Count(s.planets, Assigned), timeTaken := MaxTravelTime(s.planets))
  }

  /**
   `selectThisPlanet`: toggle a planet. Selecting a fifth planet is refused
   and changes nothing. Unselecting a planet that holds a vehicle frees that
   vehicle by id, clears the assignment and recalculates count and time.
   The selected count is always recounted over all planets.
   */
  function SelectPlanet(s: State, p: nat): (r: Transition)
    requires p < |s.planets|
    ensures |r.next.planets| == |s.planets| && |r.next.vehicles| == |s.vehicles|
    ensures r.next.lastDrag == s.lastDrag
    ensures r.reply.Refused? <==> !s.planets[p].isSelected && s.selectedPlanetsCount == 4
    ensures r.reply.Refused? ==> r == Transition(s, Refused(SelectionLimit))
    ensures r.reply == Done ==>
      && Selected(r.next.planets[p]) == !Selected(s.planets[p])
      && r.next.planets[p].name == s.planets[p].name
      && r.next.planets[p].distance == s.planets[p].distance
      && (forall i :: 0 <= i < |s.planets| && i != p ==> r.next.planets[i] == s.planets[i])
      && r.next.selectedPlanetsCount == Count(r.next.planets, Selected)
    ensures r.reply == Done && !Selected(s.planets[p]) ==>
      r.next.planets[p].assignedVehicle == s.planets[p].assignedVehicle
    ensures r.reply == Done && Selected(s.planets[p]) ==> !Assigned(r.next.planets[p])
    ensures r.reply == Done && EnRoute(s.planets[p]) ==>
      && r.next.vehicles == ResetVehicles(s.vehicles, s.planets[p].assignedVehicle.value.id)
      && r.next.assignedVehicleCount == Count(r.next.planets, Assigned)
      && r.next.timeTaken == MaxTravelTime(r.next.planets)
    ensures !EnRoute(s.planets[p]) ==>
      && r.next.vehicles == s.vehicles
      && r.next.assignedVehicleCount == s.assignedVehicleCount
      && r.next.timeTaken == s.timeTaken
  {
    var planet := s.planets[p];
    if !planet.isSelected && s.selectedPlanetsCount == 4 then
      Transition(s, Refused(SelectionLimit))
    else
      var toggled := planet.(isSelected := !planet.isSelected);
      var s1 :=
        if !toggled.isSelected && toggled.assignedVehicle.Some? then
          Recalculated(s.(
            vehicles := ResetVehicles(s.vehicles, toggled.assignedVehicle.value.id),
            planets := s.planets[p := toggled.(assignedVehicle := None)]))
        else
          s.(planets := s.planets[p := toggled]);
      Transition(s1.(selectedPlanetsCount := Count(s1.planets, Selected)), Done)
  }

  /**
   `connectVehicleToPlanet`, the drop half of a drag. The range check comes
   first, then the selection check; either refusal only clears `lastDrag`.
   On success the vehicle previously on the planet is freed by id, the
   dropped copy is bound, `lastDrag` is set and count and time recalculated.
   Availability of the dropped vehicle is NOT checked here.
   */
  function ConnectVehicle(s: State, p: nat, v: Vehicle): (r: Transition)
    requires p < |s.planets|
    ensures |r.next.planets| == |s.planets| && |r.next.vehicles| == |s.vehicles|
    ensures v.maxDistance < s.planets[p].distance ==>
      r == Transition(s.(lastDrag := false), Refused(OutOfRange))
    ensures s.planets[p].distance <= v.maxDistance && !Selected(s.planets[p]) ==>
      r == Transition(s.(lastDrag := false), Refused(PlanetNotSelected))
    ensures s.planets[p].distance <= v.maxDistance && Selected(s.planets[p]) ==>
      && r.reply == Done
      && r.next.lastDrag
      && r.next.planets == s.planets[p := s.planets[p].(assignedVehicle := Some(v))]
      && r.next.vehicles == (if Assigned(s.planets[p])
                             then ResetVehicles(s.vehicles, s.planets[p].assignedVehicle.value.id)
                             else s.vehicles)
      && r.next.selectedPlanetsCount == s.selectedPlanetsCount
      && r.next.assignedVehicleCount == Count(r.next.planets, Assigned)
      && r.next.timeTaken == MaxTravelTime(r.next.planets)
  {
    var planet := s.planets[p];
    if v.maxDistance < planet.distance then
      Transition(s.(lastDrag := false), Refused(OutOfRange))
    else if !planet.isSelected then
      Transition(s.(lastDrag := false), Refused(PlanetNotSelected))
    else
      var freed := if planet.assignedVehicle.Some? then ResetVehicles(s.vehicles, planet.assignedVehicle.value.id)
                   else s.vehicles;
      var bound := s.planets[p := planet.(assignedVehicle := Some(v))];
      Transition(Recalculated(s.(vehicles := freed, planets := bound, lastDrag := true)), Done)
  }

  /**
   `markVehicleForSelection`, the drag-end half. `dropped` is false when the
   browser reports the drop effect `none`. The dragged vehicle becomes
   unavailable only if it was dropped and the last drop was accepted.
   */
  function MarkVehicle(s: State, k: nat, dropped: bool): (r: State)
    requires k < |s.vehicles|
    ensures r.planets == s.planets && r.lastDrag == s.lastDrag && r.timeTaken == s.timeTaken
    ensures r.selectedPlanetsCount == s.selectedPlanetsCount && r.assignedVehicleCount == s.assignedVehicleCount
    ensures |r.vehicles| == |s.vehicles|
    ensures r.vehicles[k].isAvailable == (s.vehicles[k].isAvailable && !(dropped && s.lastDrag))
    ensures r.vehicles[k].(isAvailable := s.vehicles[k].isAvailable) == s.vehicles[k]
    ensures forall j :: 0 <= j < |s.vehicles| && j != k ==> r.vehicles[j] == s.vehicles[j]
  {
    if dropped && s.lastDrag then s.(vehicles := s.vehicles[k := s.vehicles[k].(isAvailable := false)])
    else s
  }

  /**
   One complete gesture: inventory vehicle `k` is dragged (its JSON copy is
   taken), dropped on planet `p`, and the drag ends on an accepted drop.
   */
  function Drop(s: State, p: nat, k: nat): (r: Transition)
    requires p < |s.planets| && k < |s.vehicles|
    ensures |r.next.planets| == |s.planets| && |r.next.vehicles| == |s.vehicles|
    ensures r.reply == ConnectVehicle(s, p, s.vehicles[k]).reply
    ensures r.reply == Done <==> s.vehicles[k].maxDistance >= s.planets[p].distance && Selected(s.planets[p])
    ensures r.reply == Done ==>
      && r.next.planets[p].assignedVehicle == Some(s.vehicles[k])
      && !r.next.vehicles[k].isAvailable
    ensures r.reply == Done ==>
      var freed := if Assigned(s.planets[p]) then ResetVehicles(s.vehicles, s.planets[p].assignedVehicle.value.id)
                   else s.vehicles;
      && r.next.lastDrag
      && r.next.planets == s.planets[p := s.planets[p].(assignedVehicle := Some(s.vehicles[k]))]
      && r.next.vehicles == freed[k := freed[k].(isAvailable := false)]
      && r.next.selectedPlanetsCount == s.selectedPlanetsCount
      && r.next.assignedVehicleCount == Count(r.next.planets, Assigned)
      && r.next.timeTaken == MaxTravelTime(r.next.planets)
    ensures r.reply.Refused? ==> r.next == s.(lastDrag := false)
  {
    var t := ConnectVehicle(s, p, s.vehicles[k]);
    Transition(MarkVehicle(t.next, k, true), t.reply)
  }
}

=== FILE: invariants.dfy ===
/**
 Facts that hold across every handler of the galaxy screen: assignments only
 on selected planets, counters equal to their scans, a travel time that
 matches the planets, and, for complete drag gestures, a vehicle inventory
 whose availability mirrors the assignments.
 */
module Invariants {
  import opened Wrappers
  import opened Counting
  import opened Inventory
  import opened Galaxy

  predicate AssignedAreSelected(ps: seq<Planet>) {
    forall i :: 0 <= i < |ps| && Assigned(ps[i]) ==> Selected(ps[i])
  }

  predicate CountsMatchScans(s: State) {
    && s.selectedPlanetsCount == Count(s.planets, Selected)
    && s.assignedVehicleCount == Count(s.planets, Assigned)
  }

  /**
   The stored time is the maximum over en-route planets; the only exception
   is the 0 that loading and `reset` store where the scan would give -Infinity.
   */
  predicate TimeMatchesScan(s: State) {
    || s.timeTaken == MaxTravelTime(s.planets)
    || (MaxTravelTime(s.planets) == NegInfinity && s.timeTaken == Finite(0))
  }

  predicate Consistent(s: State) {
    && AssignedAreSelected(s.planets)
    && CountsMatchScans(s)
    && TimeMatchesScan(s)
    && s.selectedPlanetsCount <= 4
  }

  /** On a consistent screen at most four planets are selected and no more assigned. */
  lemma CountsBounded(s: State)
    requires Consistent(s)
    ensures s.assignedVehicleCount <= s.selectedPlanetsCount <= 4
  {
    CountMonotone(s.planets, Assigned, Selected);
  }

  lemma InitialConsistent(catalog: seq<PlanetEntry>, types: seq<VehicleType>)
    ensures Consistent(Initial(catalog, types))
  {
    var s := Initial(catalog, types);
    CountZero(s.planets, Selected);
    CountZero(s.planets, Assigned);
    MaxTravelTimeIsMaximum(s.planets);
  }

  lemma ResetConsistent(s: State)
    ensures Consistent(Reset(s))
  {
    var r := Reset(s);
    CountZero(r.planets, Selected);
    CountZero(r.planets, Assigned);
    MaxTravelTimeIsMaximum(r.planets);
  }

  lemma SelectPreservesConsistent(s: State, p: nat)
    requires p < |s.planets| && Consistent(s)
    ensures Consistent(SelectPlanet(s, p).next)
  {
    var r := SelectPlanet(s, p).next;
    var before := s.planets[p];
    var after := r.planets[p];
    if SelectPlanet(s, p).reply == Done {
      assert r.planets == s.planets[p := after];
      CountUpdate(s.planets, p, after, Selected);
      CountUpdate(s.planets, p, after, Assigned);
      if !EnRoute(before) {
        MaxTravelTimeUpdate(s.planets, p, after);
      }
    }
  }

  lemma ConnectPreservesConsistent(s: State, p: nat, v: Vehicle)
    requires p < |s.planets| && Consistent(s)
    ensures Consistent(ConnectVehicle(s, p, v).next)
  {
    var r := ConnectVehicle(s, p, v).next;
    if ConnectVehicle(s, p, v).reply == Done {
      CountUpdate(s.planets, p, r.planets[p], Selected);
    }
  }

  lemma MarkPreservesConsistent(s: State, k: nat, dropped: bool)
    requires k < |s.vehicles| && Consistent(s)
    ensures Consistent(MarkVehicle(s, k, dropped))
  {
  }

  /** The events of the screen, with planets and vehicles named by position. */
  datatype Event =
    | SelectEvent(planet: nat)
    | DropEvent(planet: nat, vehicle: Vehicle)
    | DragEndEvent(index: nat, dropped: bool)
    | ResetEvent

  predicate EventInRange(e: Event, planetCount: nat, vehicleCount: nat) {
    match e
    case SelectEvent(p) => p < planetCount
    case DropEvent(p, _) => p < planetCount
    case DragEndEvent(k, _) => k < vehicleCount
    case ResetEvent => true
  }

  function Apply(s: State, e: Event): (r: State)
    requires EventInRange(e, |s.planets|, |s.vehicles|)
    ensures |r.planets| == |s.planets| && |r.vehicles| == |s.vehicles|
  {
    match e
    case SelectEvent(p) => SelectPlanet(s, p).next
    case DropEvent(p, v) => ConnectVehicle(s, p, v).next
    case DragEndEvent(k, dropped) => MarkVehicle(s, k, dropped)
    case ResetEvent => Reset(s)
  }

  predicate AllInRange(es: seq<Event>, planetCount: nat, vehicleCount: nat) {
    forall i :: 0 <= i < |es| ==> EventInRange(es[i], planetCount, vehicleCount)
  }

  function Run(s: State, es: seq<Event>): (r: State)
    requires AllInRange(es, |s.planets|, |s.vehicles|)
    ensures |r.planets| == |s.planets| && |r.vehicles| == |s.vehicles|
    decreases |es|
  {
    if |es| == 0 then s else Run(Apply(s, es[0]), es[1..])
  }

  lemma ApplyPreservesConsistent(s: State, e: Event)
    requires EventInRange(e, |s.planets|, |s.vehicles|) && Consistent(s)
    ensures Consistent(Apply(s, e))
  {
    match e
    case SelectEvent(p) => SelectPreservesConsistent(s, p);
    case DropEvent(p, v) => ConnectPreservesConsistent(s, p, v);
    case DragEndEvent(k, dropped) => MarkPreservesConsistent(s, k, dropped);
    case ResetEvent => ResetConsistent(s);
  }

  lemma {:induction false} RunPreservesConsistent(s: State, es: seq<Event>)
    requires AllInRange(es, |s.planets|, |s.vehicles|) && Consistent(s)
    ensures Consistent(Run(s, es))
    decreases |es|
  {
    if |es| > 0 {
      ApplyPreservesConsistent(s, es[0]);
      RunPreservesConsistent(Apply(s, es[0]), es[1..]);
    }
  }

  /**
   Whatever the player does after loading, every assigned planet is selected,
   the counters equal their scans and at most four planets are selected.
   */
  lemma ReachableConsistent(catalog: seq<PlanetEntry>, types: seq<VehicleType>, es: seq<Event>)
    requires AllInRange(es, |catalog|, TotalStock(types))
    ensures Consistent(Run(Initial(catalog, types), es))
    ensures Run(Initial(catalog, types), es).assignedVehicleCount
         <= Run(Initial(catalog, types), es).selectedPlanetsCount <= 4
  {
    InitialConsistent(catalog, types);
    RunPreservesConsistent(Initial(catalog, types), es);
    CountsBounded(Run(Initial(catalog, types), es));
  }

  /**
   When four planets are selected and four assigned, every selected planet
   holds a vehicle and the stored time is the true maximum, a finite number.
   */
  lemma FullAssignment(s: State)
    requires Consistent(s) && s.selectedPlanetsCount == 4 && s.assignedVehicleCount == 4
    ensures forall i :: 0 <= i < |s.planets| && Selected(s.planets[i]) ==> Assigned(s.planets[i])
    ensures s.timeTaken == MaxTravelTime(s.planets) && s.timeTaken.Finite?
  {
    CountSqueeze(s.planets, Assigned, Selected);
    CountZero(s.planets, Assigned);
    var i :| 0 <= i < |s.planets| && Assigned(s.planets[i]);
    MaxTravelTimeIsMaximum(s.planets);
  }

  /**
   Unselecting a planet that holds a vehicle frees exactly the inventory
   vehicles with that id, clears the assignment and lowers the assigned
   count by one.
   */
  lemma UnselectReleases(s: State, p: nat)
    requires p < |s.planets| && Consistent(s) && EnRoute(s.planets[p])
    ensures SelectPlanet(s, p).reply == Done
    ensures !Selected(SelectPlanet(s, p).next.planets[p]) && !Assigned(SelectPlanet(s, p).next.planets[p])
    ensures SelectPlanet(s, p).next.assignedVehicleCount == s.assignedVehicleCount - 1
    ensures SelectPlanet(s, p).next.selectedPlanetsCount == s.selectedPlanetsCount - 1
    ensures forall k :: 0 <= k < |s.vehicles| ==>
      SelectPlanet(s, p).next.vehicles[k].isAvailable ==
        (s.vehicles[k].isAvailable || s.vehicles[k].id == s.planets[p].assignedVehicle.value.id)
  {
    var r := SelectPlanet(s, p).next;
    assert r.planets == s.planets[p := r.planets[p]];
    CountUpdate(s.planets, p, r.planets[p], Selected);
    CountUpdate(s.planets, p, r.planets[p], Assigned);
  }

  /** Selecting a planet never touches vehicles, assignments, count of vehicles or time. */
  lemma SelectKeepsAssignments(s: State, p: nat)
    requires p < |s.planets| && Consistent(s) && !Selected(s.planets[p])
    ensures SelectPlanet(s, p).next.vehicles == s.vehicles
    ensures forall i :: 0 <= i < |s.planets| ==>
      SelectPlanet(s, p).next.planets[i].assignedVehicle == s.planets[i].assignedVehicle
    ensures SelectPlanet(s, p).reply == Done ==>
      SelectPlanet(s, p).next.selectedPlanetsCount == s.selectedPlanetsCount + 1
  {
    var r := SelectPlanet(s, p).next;
    if SelectPlanet(s, p).reply == Done {
      assert r.planets == s.planets[p := r.planets[p]];
      CountUpdate(s.planets, p, r.planets[p], Selected);
    }
  }

  /** Some planet holds a vehicle with this id. */
  predicate Held(ps: seq<Planet>, id: string) {
    exists i :: 0 <= i < |ps| && Assigned(ps[i]) && ps[i].assignedVehicle.value.id == id
  }

  /** No two planets hold vehicles with the same id. */
  predicate SingleHolder(ps: seq<Planet>) {
    forall i, j ::
      (0 <= i < |ps| && 0 <= j < |ps| && Assigned(ps[i]) && Assigned(ps[j])
       && ps[i].assignedVehicle.value.id == ps[j].assignedVehicle.value.id) ==> i == j
  }

  /** A vehicle is unavailable exactly when some planet holds it. */
  predicate AvailabilityMatches(s: State) {
    forall k :: 0 <= k < |s.vehicles| ==> (s.vehicles[k].isAvailable <==> !Held(s.planets, s.vehicles[k].id))
  }

  predicate Bookkept(s: State) {
    UniqueIds(s.vehicles) && SingleHolder(s.planets) && AvailabilityMatches(s)
  }

  lemma InitialBookkept(catalog: seq<PlanetEntry>, types: seq<VehicleType>)
    requires DistinctNames(types)
    ensures Bookkept(Initial(catalog, types))
  {
    ExpandUniqueIds(types);
  }

  lemma ResetBookkept(s: State)
    requires UniqueIds(s.vehicles)
    ensures Bookkept(Reset(s))
  {
    var r := Reset(s);
    forall i, j | 0 <= i < j < |r.vehicles|
      ensures r.vehicles[i].id != r.vehicles[j].id
    {
      assert r.vehicles[i].id == s.vehicles[i].id && r.vehicles[j].id == s.vehicles[j].id;
    }
  }

  /** Freeing by id makes exactly that id's vehicles available; ids stay. */
  lemma ResetVehiclesKeepsIds(vs: seq<Vehicle>, id: string)
    requires UniqueIds(vs)
    ensures UniqueIds(ResetVehicles(vs, id))
  {
    var r := ResetVehicles(vs, id);
    forall i, j | 0 <= i < j < |r|
      ensures r[i].id != r[j].id
    {
      assert r[i].id == vs[i].id && r[j].id == vs[j].id;
    }
  }

  lemma SelectPreservesBookkept(s: State, p: nat)
    requires p < |s.planets| && Consistent(s) && Bookkept(s)
    ensures Bookkept(SelectPlanet(s, p).next)
  {
    var t := SelectPlanet(s, p);
    var r := t.next;
    if t.reply == Done {
      if EnRoute(s.planets[p]) {
        var q := s.planets[p].assignedVehicle.value.id;
        ResetVehiclesKeepsIds(s.vehicles, q);
        forall k | 0 <= k < |r.vehicles|
          ensures r.vehicles[k].isAvailable <==> !Held(r.planets, r.vehicles[k].id)
        {
          var id := s.vehicles[k].id;
          assert r.vehicles[k].id == id;
          if Held(r.planets, id) {
            var i :| 0 <= i < |r.planets| && Assigned(r.planets[i]) && r.planets[i].assignedVehicle.value.id == id;
            assert i != p && r.planets[i] == s.planets[i];
          }
          if id != q && Held(s.planets, id) {
            var i :| 0 <= i < |s.planets| && Assigned(s.planets[i]) && s.planets[i].assignedVehicle.value.id == id;
            assert i != p && r.planets[i] == s.planets[i];
          }
        }
      } else {
        assert r.planets[p] == s.planets[p].(isSelected := !s.planets[p].isSelected);
        forall id: string
          ensures Held(r.planets, id) <==> Held(s.planets, id)
        {
          if Held(r.planets, id) {
            var i :| 0 <= i < |r.planets| && Assigned(r.planets[i]) && r.planets[i].assignedVehicle.value.id == id;
            assert i != p && r.planets[i] == s.planets[i];
          }
          if Held(s.planets, id) {
            var i :| 0 <= i < |s.planets| && Assigned(s.planets[i]) && s.planets[i].assignedVehicle.value.id == id;
            assert i != p && r.planets[i] == s.planets[i];
          }
        }
      }
    }
  }

  /**
   A complete gesture with an available vehicle keeps the inventory honest:
   the vehicle freed from the planet (if any) becomes available, the dropped
   one unavailable, and no id is held twice.
   */
  lemma DropPreservesBookkept(s: State, p: nat, k: nat)
    requires p < |s.planets| && k < |s.vehicles|
    requires Bookkept(s) && s.vehicles[k].isAvailable
    ensures Bookkept(Drop(s, p, k).next)
  {
    var t := Drop(s, p, k);
    var r := t.next;
    var v := s.vehicles[k];
    if t.reply == Done {
      var c := ConnectVehicle(s, p, v).next;
      assert r == MarkVehicle(c, k, true);
      assert r.planets == s.planets[p := s.planets[p].(assignedVehicle := Some(v))];
      forall m | 0 <= m < |r.vehicles|
        ensures r.vehicles[m].id == s.vehicles[m].id
        ensures m != k ==> (r.vehicles[m].isAvailable == (s.vehicles[m].isAvailable
          || (Assigned(s.planets[p]) && s.vehicles[m].id == s.planets[p].assignedVehicle.value.id)))
      {
      }
      BindKeepsBookkept(s, r, p, k);
    }
  }

  /**
   The bookkeeping step of an accepted gesture, stated on the two screens:
   planet `p` now holds available vehicle `k`, which became unavailable, and
   the vehicle the planet held before (if any) became available again.
   */
  lemma BindKeepsBookkept(s: State, r: State, p: nat, k: nat)
    requires p < |s.planets| && k < |s.vehicles|
    requires Bookkept(s) && s.vehicles[k].isAvailable
    requires r.planets == s.planets[p := s.planets[p].(assignedVehicle := Some(s.vehicles[k]))]
    requires |r.vehicles| == |s.vehicles| && !r.vehicles[k].isAvailable
    requires forall m :: 0 <= m < |r.vehicles| ==> r.vehicles[m].id == s.vehicles[m].id
    requires forall m :: 0 <= m < |r.vehicles| && m != k ==> (r.vehicles[m].isAvailable == (s.vehicles[m].isAvailable
      || (Assigned(s.planets[p]) && s.vehicles[m].id == s.planets[p].assignedVehicle.value.id)))
    ensures Bookkept(r)
  {
    var v := s.vehicles[k];
    var freed := Assigned(s.planets[p]);
    if freed {
      assert s.planets[p].assignedVehicle.value.id != v.id;
    }
    assert UniqueIds(r.vehicles) by {
      forall i, j | 0 <= i < j < |r.vehicles|
        ensures r.vehicles[i].id != r.vehicles[j].id
      {
        assert s.vehicles[i].id != s.vehicles[j].id;
      }
    }
    forall m | 0 <= m < |r.vehicles|
      ensures r.vehicles[m].isAvailable <==> !Held(r.planets, r.vehicles[m].id)
    {
      var id := s.vehicles[m].id;
      if m == k {
        assert Assigned(r.planets[p]) && r.planets[p].assignedVehicle.value.id == id;
      } else {
        assert id != v.id;
        if Held(r.planets, id) {
          var i :| 0 <= i < |r.planets| && Assigned(r.planets[i]) && r.planets[i].assignedVehicle.value.id == id;
          assert i != p && r.planets[i] == s.planets[i];
        }
        if Held(s.planets, id) && !(freed && id == s.planets[p].assignedVehicle.value.id) {
          var i :| 0 <= i < |s.planets| && Assigned(s.planets[i]) && s.planets[i].assignedVehicle.value.id == id;
          assert i != p && r.planets[i] == s.planets[i];
        }
      }
    }
  }

  /**
   Rebinding: dropping an available vehicle on a selected planet in range
   that already holds another one frees the previous vehicle and takes the
   new one.
   */
  lemma RebindSwapsAvailability(s: State, p: nat, k: nat, m: nat)
    requires p < |s.planets| && k < |s.vehicles| && m < |s.vehicles|
    requires Bookkept(s) && s.vehicles[k].isAvailable
    requires Selected(s.planets[p]) && s.planets[p].distance <= s.vehicles[k].maxDistance
    requires Assigned(s.planets[p]) && s.planets[p].assignedVehicle.value.id == s.vehicles[m].id
    ensures m != k
    ensures Drop(s, p, k).next.vehicles[m].isAvailable
    ensures !Drop(s, p, k).next.vehicles[k].isAvailable
    ensures Drop(s, p, k).next.planets[p].assignedVehicle == Some(s.vehicles[k])
  {
    assert Held(s.planets, s.vehicles[m].id);
  }

  /**
   `lastDrag` is never cleared after a successful drop, so a later drag that
   ends on an accepting element without reaching `connectVehicleToPlanet`
   marks its vehicle unavailable though no planet holds it.
   */
  lemma StaleDragEndBreaksAvailability(s: State, k: nat)
    requires k < |s.vehicles| && AvailabilityMatches(s)
    requires s.lastDrag && s.vehicles[k].isAvailable
    ensures !AvailabilityMatches(MarkVehicle(s, k, true))
  {
    var r := MarkVehicle(s, k, true);
    assert !Held(s.planets, s.vehicles[k].id);
    assert !r.vehicles[k].isAvailable && r.vehicles[k].id == s.vehicles[k].id;
  }
}

=== FILE: inventory.dfy ===
/**
 The vehicle inventory: the catalog lists vehicle TYPES, each with a stock
 `total_no`; the component expands them into individually draggable vehicle
 INSTANCES with ids `<name>_1 .. <name>_<total_no>`, all available.
 */
module Inventory {
  import opened Decimal

  /** Speeds are positive: travel time divides by them. */
  type Speed = n: nat | n > 0 witness 1

  datatype VehicleType = VehicleType(name: string, totalNo: nat, maxDistance: nat, speed: Speed)

  /**
   One vehicle instance. It carries every field of its type (the source copies
   the whole type record) plus its own `id` and availability flag.
   */
  datatype Vehicle = Vehicle(
    id: string,
    name: string,
    totalNo: nat,
    maxDistance: nat,
    speed: Speed,
    isAvailable: bool)

  function InstanceId(name: string, i: nat): string {
    name + "_" + NatToString(i)
  }

  /** The `i`-th (1-based) available copy of type `t`. */
  function Instance(t: VehicleType, i: nat): Vehicle {
    Vehicle(InstanceId(t.name, i), t.name, t.totalNo, t.maxDistance, t.speed, true)
  }

  /** The copies of one type, numbered from 1. */
  function Instances(t: VehicleType): (vs: seq<Vehicle>)
    ensures |vs| == t.totalNo
    ensures forall j :: 0 <= j < |vs| ==> vs[j] == Instance(t, j + 1)
  {
    seq(t.totalNo, j requires 0 <= j < t.totalNo => Instance(t, j + 1))
  }

  /** The summed stock of a sequence of types. */
  function TotalStock(ts: seq<VehicleType>): nat {
    if |ts| == 0 then 0 else TotalStock(ts[..|ts| - 1]) + ts[|ts| - 1].totalNo
  }

  /** The expanded inventory: the copies of each type, types in catalog order. */
  function Expand(ts: seq<VehicleType>): (vs: seq<Vehicle>)
    ensures |vs| == TotalStock(ts)
    ensures forall i :: 0 <= i < |vs| ==> vs[i].isAvailable
  {
    if |ts| == 0 then [] else Expand(ts[..|ts| - 1]) + Instances(ts[|ts| - 1])
  }

  /** The expansion of a prefix of the catalog is a prefix of the expansion. */
  lemma {:induction false} ExpandPrefix(ts: seq<VehicleType>, k: nat)
    requires k <= |ts|
    ensures |Expand(ts[..k])| <= |Expand(ts)|
    ensures Expand(ts)[..|Expand(ts[..k])|] == Expand(ts[..k])
    decreases |ts|
  {
    if k < |ts| {
      var init := ts[..|ts| - 1];
      assert init[..k] == ts[..k];
      ExpandPrefix(init, k);
    } else {
      assert ts[..k] == ts;
    }
  }

  /**
   Layout of the expansion: the `j`-th copy of the `k`-th type sits right
   after the copies of all earlier types, with id `<name>_<j+1>`.
   */
  lemma ExpandLayout(ts: seq<VehicleType>, k: nat, j: nat)
    requires k < |ts| && j < ts[k].totalNo
    ensures TotalStock(ts[..k]) + j < TotalStock(ts)
    ensures Expand(ts)[TotalStock(ts[..k]) + j] == Instance(ts[k], j + 1)
    ensures Expand(ts)[TotalStock(ts[..k]) + j].id == ts[k].name + "_" + NatToString(j + 1)
  {
    assert ts[..k + 1][..k] == ts[..k];
    ExpandPrefix(ts, k + 1);
  }

  /** Conversely every instance is some copy of some catalog type. */
  lemma {:induction false} ExpandOrigin(ts: seq<VehicleType>, i: nat)
    requires i < |Expand(ts)|
    ensures exists k, j :: 0 <= k < |ts| && 1 <= j <= ts[k].totalNo && Expand(ts)[i] == Instance(ts[k], j)
    decreases |ts|
  {
    var init := ts[..|ts| - 1];
    var last := ts[|ts| - 1];
    if i < |Expand(init)| {
      ExpandOrigin(init, i);
      var k, j :| 0 <= k < |init| && 1 <= j <= init[k].totalNo && Expand(init)[i] == Instance(init[k], j);
      assert ts[k] == init[k];
    } else {
      var j := i - |Expand(init)|;
      assert Expand(ts)[i] == Instances(last)[j] == Instance(ts[|ts| - 1], j + 1);
    }
  }

  /** Position of the last underscore of `s`, or -1 when there is none. */
  function LastUnderscore(s: string): int {
    if |s| == 0 then -1
    else if s[|s| - 1] == '_' then |s| - 1
    else LastUnderscore(s[..|s| - 1])
  }

  /** Digits contain no underscore, so the separator is the last one. */
  lemma {:induction false} LastUnderscoreOfId(n: string, d: string)
    requires forall i :: 0 <= i < |d| ==> IsDigit(d[i])
    ensures LastUnderscore(n + "_" + d) == |n|
  {
    if |d| > 0 {
      var init := d[..|d| - 1];
      assert (n + "_" + d)[..|n + "_" + d| - 1] == n + "_" + init;
      LastUnderscoreOfId(n, init);
    }
  }

  /** Ids split uniquely into type name and copy number. */
  lemma InstanceIdInjective(n1: string, i1: nat, n2: string, i2: nat)
    requires InstanceId(n1, i1) == InstanceId(n2, i2)
    ensures n1 == n2 && i1 == i2
  {
    var s := InstanceId(n1, i1);
    var d1, d2 := NatToString(i1), NatToString(i2);
    LastUnderscoreOfId(n1, d1);
    LastUnderscoreOfId(n2, d2);
    assert n1 == s[..|n1|] == n2;
    assert d1 == s[|n1| + 1..] == d2;
    NatToStringInjective(i1, i2);
  }

  predicate UniqueIds(vs: seq<Vehicle>) {
    forall i, j :: 0 <= i < j < |vs| ==> vs[i].id != vs[j].id
  }

  predicate DistinctNames(ts: seq<VehicleType>) {
    forall i, j :: 0 <= i < j < |ts| ==> ts[i].name != ts[j].name
  }

  /** A catalog whose type names differ yields vehicles whose ids differ. */
  lemma {:induction false} ExpandUniqueIds(ts: seq<VehicleType>)
    requires DistinctNames(ts)
    ensures UniqueIds(Expand(ts))
    decreases |ts|
  {
    if |ts| > 0 {
      var init := ts[..|ts| - 1];
      var last := ts[|ts| - 1];
      ExpandUniqueIds(init);
      var a, b := Expand(init), Instances(last);
      var vs := Expand(ts);
      assert vs == a + b;
      forall i, j | 0 <= i < j < |vs|
        ensures vs[i].id != vs[j].id
      {
        if j < |a| {
          assert vs[i] == a[i] && vs[j] == a[j];
        } else if |a| <= i {
          assert vs[i] == Instance(last, i - |a| + 1) && vs[j] == Instance(last, j - |a| + 1);
          if vs[i].id == vs[j].id {
            InstanceIdInjective(last.name, i - |a| + 1, last.name, j - |a| + 1);
          }
        } else {
          ExpandOrigin(init, i);
          var k, m :| 0 <= k < |init| && 1 <= m <= init[k].totalNo && a[i] == Instance(init[k], m);
          assert vs[j] == Instance(last, j - |a| + 1);
          assert init[k].name == ts[k].name != last.name;
          if vs[i].id == vs[j].id {
            InstanceIdInjective(init[k].name, m, last.name, j - |a| + 1);
          }
        }
      }
    }
  }

  /**
   The loading loop of the component: for each type in order, push copies
   `1 .. total_no` with fresh ids, all available.
   */
  method ExpandInventory(ts: seq<VehicleType>) returns (vs: seq<Vehicle>)
    ensures vs == Expand(ts)
  {
    vs := [];
    for k := 0 to |ts|
      invariant vs == Expand(ts[..k])
    {
      var t := ts[k];
      for i := 1 to t.totalNo + 1
        invariant vs == Expand(ts[..k]) + Instances(t)[..i - 1]
      {
        vs := vs + [Instance(t, i)];
      }
      assert ts[..k + 1][..k] == ts[..k];
      assert Instances(t)[..t.totalNo] == Instances(t);
    }
    assert ts[..|ts|] == ts;
  }
}

=== FILE: search.dfy ===
/**
 `findFalcone`: the guard that demands four planets with four vehicles, the
 request body sent to the search service, and the mock resolution the screen
 falls back to when the service call fails. The random draw of the fallback
 is the parameter `idx`.
 */
module Search {
  import opened Counting
  import opened Galaxy
  import opened Invariants

  datatype RequestBody = RequestBody(planetNames: seq<string>, vehicleNames: seq<string>)

  /** The record the result page receives. */
  datatype Response = Found(planetName: string, timeTaken: Time) | NotFound

  /**
   What a press of the search button leads to: an error toast, nothing at
   all (the guard's two branches do not cover every count), navigation to the
   result page, or an exception in the fallback before it navigates.
   */
  datatype Outcome = Rejected(reason: Error) | NoSearch | Navigated(response: Response) | Crashed

  /** The selected planets, in catalog order. */
  function SelectedPlanets(ps: seq<Planet>): (r: seq<Planet>)
    ensures |r| == Count(ps, Selected)
    ensures forall x :: x in r <==> x in ps && Selected(x)
    ensures forall i :: 0 <= i < |r| ==> Selected(r[i])
    ensures forall i :: 0 <= i < |ps| && Selected(ps[i]) ==>
      Count(ps[..i], Selected) < |r| && r[Count(ps[..i], Selected)] == ps[i]
  {
    if |ps| == 0 then []
    else
      var rest := SelectedPlanets(ps[1..]);
      SelectedOrderStep(ps, rest);
      (if Selected(ps[0]) then [ps[0]] else []) + rest
  }

  /**
   The inductive step of `SelectedPlanets`' ordering: if `rest` lists the
   selected planets of the tail by their selected rank, putting the head in
   front when it is selected lists those of the whole catalog the same way.
   */
  lemma {:induction false} SelectedOrderStep(ps: seq<Planet>, rest: seq<Planet>)
    requires |ps| > 0
    requires forall i :: 0 <= i < |ps[1..]| && Selected(ps[1..][i]) ==>
      Count(ps[1..][..i], Selected) < |rest| && rest[Count(ps[1..][..i], Selected)] == ps[1..][i]
    ensures forall i :: 0 <= i < |ps| && Selected(ps[i]) ==>
      && Count(ps[..i], Selected) < |(if Selected(ps[0]) then [ps[0]] else []) + rest|
      && ((if Selected(ps[0]) then [ps[0]] else []) + rest)[Count(ps[..i], Selected)] == ps[i]
  {
    var r := (if Selected(ps[0]) then [ps[0]] else []) + rest;
    forall i | 0 < i < |ps| && Selected(ps[i])
      ensures Count(ps[..i], Selected) < |r| && r[Count(ps[..i], Selected)] == ps[i]
    {
      assert ps[..i][1..] == ps[1..][..i - 1];
      assert ps[1..][i - 1] == ps[i];
    }
  }

  /**
   The body built in the token callback: the name of every selected planet
   and, for those that hold one, the name of its vehicle, in catalog order.
   */
  function BuildRequestBody(ps: seq<Planet>): (b: RequestBody)
    ensures |b.planetNames| == Count(ps, Selected)
    ensures |b.vehicleNames| == Count(ps, EnRoute)
  {
    if |ps| == 0 then RequestBody([], [])
    else
      var rest := BuildRequestBody(ps[1..]);
      var p := ps[0];
      if p.isSelected then
        RequestBody([p.name] + rest.planetNames,
                    (if p.assignedVehicle.Some? then [p.assignedVehicle.value.name] else []) + rest.vehicleNames)
      else rest
  }

  /** The planet names of the body are those of the selected planets, in catalog order. */
  lemma {:induction false} RequestBodyPlanetNames(ps: seq<Planet>)
    ensures forall i :: 0 <= i < |BuildRequestBody(ps).planetNames| ==>
      BuildRequestBody(ps).planetNames[i] == SelectedPlanets(ps)[i].name
  {
    if |ps| > 0 {
      RequestBodyPlanetNames(ps[1..]);
      var b, rest := BuildRequestBody(ps), BuildRequestBody(ps[1..]);
      var sp, sr := SelectedPlanets(ps), SelectedPlanets(ps[1..]);
      if Selected(ps[0]) {
        assert sp == [ps[0]] + sr;
        assert b.planetNames == [ps[0].name] + rest.planetNames;
      } else {
        assert sp == sr && b == rest;
      }
    }
  }

  /**
   When every selected planet holds a vehicle, the two name lists line up:
   the `i`-th vehicle name belongs to the vehicle of the `i`-th planet.
   */
  lemma {:induction false} RequestBodyAligned(ps: seq<Planet>)
    requires forall i :: 0 <= i < |ps| && Selected(ps[i]) ==> Assigned(ps[i])
    ensures |BuildRequestBody(ps).vehicleNames| == |BuildRequestBody(ps).planetNames|
    ensures forall i :: 0 <= i < |BuildRequestBody(ps).planetNames| ==>
      && Assigned(SelectedPlanets(ps)[i])
      && BuildRequestBody(ps).vehicleNames[i] == SelectedPlanets(ps)[i].assignedVehicle.value.name
  {
    if |ps| > 0 {
      forall i | 0 <= i < |ps[1..]| && Selected(ps[1..][i])
        ensures Assigned(ps[1..][i])
      {
        assert ps[1..][i] == ps[i + 1];
      }
      RequestBodyAligned(ps[1..]);
      var b, rest := BuildRequestBody(ps), BuildRequestBody(ps[1..]);
      var sp, sr := SelectedPlanets(ps), SelectedPlanets(ps[1..]);
      if Selected(ps[0]) {
        assert sp == [ps[0]] + sr;
        assert b.planetNames == [ps[0].name] + rest.planetNames;
        assert b.vehicleNames == [ps[0].assignedVehicle.value.name] + rest.vehicleNames;
        forall i | 0 < i < |b.planetNames|
          ensures Assigned(sp[i]) && b.vehicleNames[i] == sp[i].assignedVehicle.value.name
        {
          assert sp[i] == sr[i - 1];
          assert b.vehicleNames[i] == rest.vehicleNames[i - 1];
        }
      } else {
        assert sp == sr && b == rest;
      }
    }
  }

  /** On a screen ready to search the body names four planets and their four vehicles. */
  lemma ReadyRequestBody(s: State)
    requires Consistent(s) && s.selectedPlanetsCount == 4 && s.assignedVehicleCount == 4
    ensures |BuildRequestBody(s.planets).planetNames| == 4
    ensures |BuildRequestBody(s.planets).vehicleNames| == 4
    ensures forall i :: 0 <= i < 4 ==>
      && SelectedPlanets(s.planets)[i].name == BuildRequestBody(s.planets).planetNames[i]
      && Assigned(SelectedPlanets(s.planets)[i])
      && SelectedPlanets(s.planets)[i].assignedVehicle.value.name == BuildRequestBody(s.planets).vehicleNames[i]
  {
    FullAssignment(s);
    RequestBodyPlanetNames(s.planets);
    RequestBodyAligned(s.planets);
  }

  /** The `forEach` of the fallback: does a selected planet carry this name? */
  function SelectedNamed(ps: seq<Planet>, name: string): (found: bool)
    ensures found <==> exists j :: 0 <= j < |ps| && Selected(ps[j]) && ps[j].name == name
  {
    if |ps| == 0 then false
    else (ps[0].isSelected && ps[0].name == name) || SelectedNamed(ps[1..], name)
  }

  /**
   The mock resolution: planet `idx` of the whole catalog is the winner.
   The search succeeds, reporting the winner and the stored time, when a
   selected planet has the winner's name, and fails otherwise. Past the end
   of the catalog the winner is undefined and reading its name throws as soon
   as a selected planet is compared with it.
   */
  function Fallback(ps: seq<Planet>, timeTaken: Time, idx: nat): (o: Outcome)
    ensures idx < |ps| ==>
      o == (if exists j :: 0 <= j < |ps| && Selected(ps[j]) && ps[j].name == ps[idx].name
            then Navigated(Found(ps[idx].name, timeTaken)) else Navigated(NotFound))
    ensures |ps| <= idx ==>
      o == (if exists j :: 0 <= j < |ps| && Selected(ps[j]) then Crashed else Navigated(NotFound))
  {
    if idx < |ps| then
      if SelectedNamed(ps, ps[idx].name) then Navigated(Found(ps[idx].name, timeTaken)) else Navigated(NotFound)
    else
      CountZero(ps, Selected);
      if Count(ps, Selected) > 0 then Crashed else Navigated(NotFound)
  }

  /**
   `findFalcone` with the service call failing, as it always does: refused
   below four planets or four vehicles, resolved by the fallback at exactly
   four and four, and silently ignored otherwise. `idx` is the value of
   `Math.floor(Math.random() * 6)`.
   */
  function FindFalcone(s: State, idx: nat): (o: Outcome)
    requires idx < 6
    ensures o == Rejected(IncompleteAssignment) <==> s.selectedPlanetsCount < 4 || s.assignedVehicleCount < 4
    ensures o.Navigated? || o.Crashed? ==> s.selectedPlanetsCount == 4 && s.assignedVehicleCount == 4
    ensures s.selectedPlanetsCount == 4 && s.assignedVehicleCount == 4 ==> o == Fallback(s.planets, s.timeTaken, idx)
    ensures (4 <= s.selectedPlanetsCount && 4 <= s.assignedVehicleCount
             && (s.selectedPlanetsCount != 4 || s.assignedVehicleCount != 4)) ==> o == NoSearch
    ensures o.Navigated? && o.response.Found? ==>
      && idx < |s.planets|
      && o.response == Found(s.planets[idx].name, s.timeTaken)
  {
    if s.selectedPlanetsCount < 4 || s.assignedVehicleCount < 4 then Rejected(IncompleteAssignment)
    else if s.selectedPlanetsCount == 4 && s.assignedVehicleCount == 4 then
      Fallback(s.planets, s.timeTaken, idx)
    else NoSearch
  }

  predicate DistinctPlanetNames(ps: seq<Planet>) {
    forall i, j :: 0 <= i < j < |ps| ==> ps[i].name != ps[j].name
  }

  /**
   With distinct planet names the name comparison is a selection test: the
   fallback succeeds exactly when the drawn planet is one the player chose.
   */
  lemma FallbackFoundIffSelected(ps: seq<Planet>, timeTaken: Time, idx: nat)
    requires DistinctPlanetNames(ps) && idx < |ps|
    ensures Fallback(ps, timeTaken, idx) == Navigated(Found(ps[idx].name, timeTaken)) <==> Selected(ps[idx])
    ensures !Selected(ps[idx]) ==> Fallback(ps, timeTaken, idx) == Navigated(NotFound)
  {
    if exists j :: 0 <= j < |ps| && Selected(ps[j]) && ps[j].name == ps[idx].name {
      var j :| 0 <= j < |ps| && Selected(ps[j]) && ps[j].name == ps[idx].name;
      assert j == idx;
    }
  }

  /**
   At four planets and four vehicles, and with distinct planet names, a draw
   inside the catalog always navigates, and the search succeeds exactly when
   the drawn planet is one the player chose.
   */
  lemma SearchResolvesBySelection(s: State, idx: nat)
    requires s.selectedPlanetsCount == 4 && s.assignedVehicleCount == 4
    requires DistinctPlanetNames(s.planets) && idx < |s.planets| && idx < 6
    ensures FindFalcone(s, idx).Navigated?
    ensures FindFalcone(s, idx).response.Found? <==> Selected(s.planets[idx])
  {
    FallbackFoundIffSelected(s.planets, s.timeTaken, idx);
  }

  /**
   On a consistent screen the guard never falls through, and a successful
   search reports the true, finite maximum travel time.
   */
  lemma SearchOnConsistentScreen(s: State, idx: nat)
    requires Consistent(s) && idx < 6
    ensures FindFalcone(s, idx) != NoSearch
    ensures FindFalcone(s, idx).Navigated? && FindFalcone(s, idx).response.Found? ==>
      FindFalcone(s, idx).response.timeTaken == MaxTravelTime(s.planets) &&
      MaxTravelTime(s.planets).Finite?
  {
    CountsBounded(s);
    if s.selectedPlanetsCount == 4 && s.assignedVehicleCount == 4 {
      FullAssignment(s);
    }
  }
}

/**
 A worked scenario: six planets A..F at distances 10..60, four pods of speed
 10 and range 100. The player selects A..D and drops pod `i` on the `i`-th of
 them; the slowest leg is 40 / 10 = 4. A draw of B finds the target, a draw
 of F does not.
 */
module SearchScenario {
  import opened Wrappers
  import opened Counting
  import opened Inventory
  import opened Galaxy
  import opened Search

  function Catalog(): seq<PlanetEntry> {
    [PlanetEntry("A", 10), PlanetEntry("B", 20), PlanetEntry("C", 30),
     PlanetEntry("D", 40), PlanetEntry("E", 50), PlanetEntry("F", 60)]
  }

  function Pods(): seq<VehicleType> {
    [VehicleType("pod", 4, 100, 10)]
  }

  function Pod(i: nat): Vehicle {
    Instance(Pods()[0], i)
  }

  function Taken(i: nat): Vehicle {
    Pod(i).(isAvailable := false)
  }

  function Fresh(name: string, distance: nat): Planet {
    Planet(name, distance, false, None)
  }

  /** A selected planet holding pod `pod`, or no vehicle when `pod` is 0. */
  function At(name: string, distance: nat, pod: nat): Planet {
    Planet(name, distance, true, if pod == 0 then None else Some(Pod(pod)))
  }

  function Row(a: Planet, b: Planet, c: Planet, d: Planet): seq<Planet> {
    [a, b, c, d, Fresh("E", 50), Fresh("F", 60)]
  }

  /** The screen after each of the eight actions of the scenario. */
  function Stage(n: nat): State
    requires 1 <= n <= 8
  {
    match n
    case 1 => State(Row(At("A", 10, 0), Fresh("B", 20), Fresh("C", 30), Fresh("D", 40)),
                    [Pod(1), Pod(2), Pod(3), Pod(4)], 1, 0, false, Finite(0))
    case 2 => State(Row(At("A", 10, 0), At("B", 20, 0), Fresh("C", 30), Fresh("D", 40)),
                    [Pod(1), Pod(2), Pod(3), Pod(4)], 2, 0, false, Finite(0))
    case 3 => State(Row(At("A", 10, 0), At("B", 20, 0), At("C", 30, 0), Fresh("D", 40)),
                    [Pod(1), Pod(2), Pod(3), Pod(4)], 3, 0, false, Finite(0))
    case 4 => State(Row(At("A", 10, 0), At("B", 20, 0), At("C", 30, 0), At("D", 40, 0)),
                    [Pod(1), Pod(2), Pod(3), Pod(4)], 4, 0, false, Finite(0))
    case 5 => State(Row(At("A", 10, 1), At("B", 20, 0), At("C", 30, 0), At("D", 40, 0)),
                    [Taken(1), Pod(2), Pod(3), Pod(4)], 4, 1, true, Finite(1))
    case 6 => State(Row(At("A", 10, 1), At("B", 20, 2), At("C", 30, 0), At("D", 40, 0)),
                    [Taken(1), Taken(2), Pod(3), Pod(4)], 4, 2, true, Finite(2))
    case 7 => State(Row(At("A", 10, 1), At("B", 20, 2), At("C", 30, 3), At("D", 40, 0)),
                    [Taken(1), Taken(2), Taken(3), Pod(4)], 4, 3, true, Finite(3))
    case 8 => State(Row(At("A", 10, 1), At("B", 20, 2), At("C", 30, 3), At("D", 40, 4)),
                    [Taken(1), Taken(2), Taken(3), Taken(4)], 4, 4, true, Finite(4))
  }

  lemma InitialScreen()
    ensures Initial(Catalog(), Pods()).vehicles == [Pod(1), Pod(2), Pod(3), Pod(4)]
    ensures Initial(Catalog(), Pods()).planets ==
      [Fresh("A", 10), Fresh("B", 20), Fresh("C", 30), Fresh("D", 40), Fresh("E", 50), Fresh("F", 60)]
  {
    var ts := Pods();
    assert ts[..0] == [];
    assert Expand(ts) == Instances(ts[0]);
    var vs := Instances(ts[0]);
    assert vs[0] == Pod(1) && vs[1] == Pod(2) && vs[2] == Pod(3) && vs[3] == Pod(4);
  }

  /** Selecting an unselected planet below the limit only marks it and recounts. */
  lemma SelectFresh(s: State, p: nat)
    requires p < |s.planets| && !Selected(s.planets[p]) && s.selectedPlanetsCount != 4
    ensures
      var ps := s.planets[p := s.planets[p].(isSelected := true)];
      SelectPlanet(s, p) == Transition(s.(planets := ps, selectedPlanetsCount := Count(ps, Selected)), Done)
  {
  }

  lemma SelectA()
    ensures SelectPlanet(Initial(Catalog(), Pods()), 0) == Transition(Stage(1), Done)
  {
    InitialScreen();
    var s := Initial(Catalog(), Pods());
    SelectFresh(s, 0);
    assert s.planets[0 := s.planets[0].(isSelected := true)] == Stage(1).planets;
    assert Count(Stage(1).planets, Selected) == 1;
  }

  lemma SelectB()
    ensures SelectPlanet(Stage(1), 1) == Transition(Stage(2), Done)
  {
    var s := Stage(1);
    SelectFresh(s, 1);
    assert s.planets[1 := s.planets[1].(isSelected := true)] == Stage(2).planets;
    assert Count(Stage(2).planets, Selected) == 2;
  }

  lemma SelectC()
    ensures SelectPlanet(Stage(2), 2) == Transition(Stage(3), Done)
  {
    var s := Stage(2);
    SelectFresh(s, 2);
    assert s.planets[2 := s.planets[2].(isSelected := true)] == Stage(3).planets;
    assert Count(Stage(3).planets, Selected) == 3;
  }

  lemma SelectD()
    ensures SelectPlanet(Stage(3), 3) == Transition(Stage(4), Done)
  {
    var s := Stage(3);
    SelectFresh(s, 3);
    assert s.planets[3 := s.planets[3].(isSelected := true)] == Stage(4).planets;
    assert Count(Stage(4).planets, Selected) == 4;
  }

  /** The travel time of stages 5..8: one pod more each time, the slowest leg last. */
  lemma StageTime(n: nat)
    requires 5 <= n <= 8
    ensures MaxTravelTime(Stage(n).planets) == Finite(n - 4)
  {
    var ps := Stage(n).planets;
    // Only the first n - 4 planets hold a pod, and the legs grow along the row.
    forall i | 0 <= i < |ps| && EnRoute(ps[i])
      ensures Leg(ps[i]) <= n - 4
    {
    }
    MaxTravelTimeIs(ps, n - 4, n - 5);
  }

  /** Dropping a vehicle on a selected planet in range that holds none. */
  lemma DropOnEmpty(s: State, p: nat, k: nat)
    requires p < |s.planets| && k < |s.vehicles|
    requires Selected(s.planets[p]) && !Assigned(s.planets[p])
    requires s.planets[p].distance <= s.vehicles[k].maxDistance
    ensures
      var ps := s.planets[p := s.planets[p].(assignedVehicle := Some(s.vehicles[k]))];
      Drop(s, p, k) == Transition(
        s.(planets := ps,
           vehicles := s.vehicles[k := s.vehicles[k].(isAvailable := false)],
           lastDrag := true,
           assignedVehicleCount := Count(ps, Assigned),
           timeTaken := MaxTravelTime(ps)),
        Done)
  {
    var t := Drop(s, p, k);
    var c := ConnectVehicle(s, p, s.vehicles[k]).next;
    assert t.next == MarkVehicle(c, k, true);
    assert t.next.vehicles == s.vehicles[k := s.vehicles[k].(isAvailable := false)];
  }

  // In the four drops below, each fact is proved in an empty `by` block so
  // that its proof stays out of the later context; without that the drops
  // exceed the resource limit.
  lemma DropA()
    ensures Drop(Stage(4), 0, 0) == Transition(Stage(5), Done)
  {
    var s := Stage(4);
    var ps := s.planets[0 := s.planets[0].(assignedVehicle := Some(s.vehicles[0]))];
    assert ps == Stage(5).planets by {}
    StageTime(5);
    assert Count(ps, Assigned) == 1 by {}
    assert s.vehicles[0 := s.vehicles[0].(isAvailable := false)] == Stage(5).vehicles by {}
    DropOnEmpty(s, 0, 0);
  }

  lemma DropB()
    ensures Drop(Stage(5), 1, 1) == Transition(Stage(6), Done)
  {
    var s := Stage(5);
    var ps := s.planets[1 := s.planets[1].(assignedVehicle := Some(s.vehicles[1]))];
    assert ps == Stage(6).planets by {}
    StageTime(6);
    assert Count(ps, Assigned) == 2 by {}
    assert s.vehicles[1 := s.vehicles[1].(isAvailable := false)] == Stage(6).vehicles by {}
    DropOnEmpty(s, 1, 1);
  }

  lemma DropC()
    ensures Drop(Stage(6), 2, 2) == Transition(Stage(7), Done)
  {
    var s := Stage(6);
    var ps := s.planets[2 := s.planets[2].(assignedVehicle := Some(s.vehicles[2]))];
    assert ps == Stage(7).planets by {}
    StageTime(7);
    assert Count(ps, Assigned) == 3 by {}
    assert s.vehicles[2 := s.vehicles[2].(isAvailable := false)] == Stage(7).vehicles by {}
    DropOnEmpty(s, 2, 2);
  }

  lemma DropD()
    ensures Drop(Stage(7), 3, 3) == Transition(Stage(8), Done)
  {
    var s := Stage(7);
    var ps := s.planets[3 := s.planets[3].(assignedVehicle := Some(s.vehicles[3]))];
    assert ps == Stage(8).planets by {}
    StageTime(8);
    assert Count(ps, Assigned) == 4 by {}
    assert s.vehicles[3 := s.vehicles[3].(isAvailable := false)] == Stage(8).vehicles by {}
    DropOnEmpty(s, 3, 3);
  }

  /** Selecting a fifth planet is refused and changes nothing. */
  lemma FifthSelectionRefused()
    ensures SelectPlanet(Stage(8), 4) == Transition(Stage(8), Refused(SelectionLimit))
  {
  }

  /** On the final screen a draw of B succeeds with time 4 and a draw of F fails. */
  lemma ScenarioOutcome()
    ensures FindFalcone(Stage(8), 1) == Navigated(Found("B", Finite(4)))
    ensures FindFalcone(Stage(8), 5) == Navigated(NotFound)
  {
  }
}

=== FILE: wrappers.dfy ===
/** The optional value the component writes as `null` or a missing field. */
module Wrappers {

  datatype Option<+T> = None | Some(value: T)
}
